=== FILE: README.md ===
# Progress tracking and request handling of an in-browser chat worker

This project models, in Dafny, the background worker of a browser chat demo
(`src/app/worker.js`). The worker loads a text-generation pipeline once,
reports multi-file download progress to the page as a single overall
percentage, runs one generation per prompt, and answers liveness probes.

The model has six modules, one per concern of the worker:

- `Wrappers` (`wrappers.dfy`): `Option` and `Result`.
- `Tracker` (`tracker.dfy`): the `progressTracker` object. It is a
  `map<string, real>` from file identifier to percentage. `Update` clamps and
  overwrites, `Complete` pins to 100, and `Mean` is the overall progress:
  0 when empty, otherwise the sum divided by the size. `OverallProgress` is
  the executable version of the `forEach` loop.
- `ProgressCallback` (`callback.dfy`): the callback passed to the loader.
  `Normalise` turns a raw fraction or a `{status, file, progress}` record into
  one tracker operation and the notice it posts, or into nothing.
- `PipelineSingleton` (`singleton.dfy`): `getInstance` as a state-transition
  function. It works on an optional cached instance. A first attempt asks for
  `model_q4f16.onnx` and a single fallback attempt asks for the default files.
  The loader is abstract: each attempt's progress reports and its success or
  failure are inputs.
- `ResponseText` (`response.dfy`): the total case analysis over the shape of
  the generator's output that yields the reply text.
- `Worker` (`worker.dfy`): the message handler as a pure function. It maps
  the worker state, one message and the abstract load and generation outcomes
  to the new state and the list of posted messages.

Percentages are mathematical reals, so JavaScript double rounding is
abstracted away. Two quirks of the code are modelled as written, not fixed:

- A progress record without a `file` is stored under `"unknown"` but posted
  as `"model"`, and a `done` record without one is posted as `"file"`.
- An empty-string `generated_text` is falsy, so it gets the
  "unexpected format" diagnostic.

## Model

| member | source | states |
|---|---|---|
| Tracker.Clamp | src/app/worker.js:66 | the result lies in [0, 100], equals the input inside that range, and is the nearer bound outside it |
| Tracker.Update | src/app/worker.js:65-67 | the file's entry becomes the clamped value, every other entry is unchanged, the key set gains only the file, the size grows only for a new file, and clamping is preserved |
| Tracker.Complete | src/app/worker.js:70-72 | the file's entry becomes exactly 100, every other entry is unchanged, the size grows only for a new file, and clamping is preserved |
| Tracker.OverallProgress | src/app/worker.js:75-84 | the loop over the entries returns the mean (0 for an empty map), and for a clamped tracker that mean is in [0, 100] |
| Tracker.SumRemove | src/app/worker.js:78-81 | the total of the entries does not depend on the order in which the loop visits them |
| Tracker.SumOverwrite | src/app/worker.js:66 | an overwritten entry contributes only its new value to the total, so nothing accumulates |
| Tracker.SumBounds | src/app/worker.js:66 | the total of a clamped tracker is between 0 and 100 per entry |
| Tracker.OverallInRange | src/app/worker.js:75-84 | the overall progress of a clamped tracker lies in [0, 100] |
| Tracker.SumAllComplete | src/app/worker.js:78-81 | when every entry is 100, the total is 100 per entry |
| Tracker.OverallAllComplete | src/app/worker.js:70-84 | once every file of a non-empty tracker is completed, the overall progress is exactly 100 |
| Tracker.ClearedIsZero | src/app/worker.js:110 | after the per-request clear no entry is left and the overall progress is 0 |
| Tracker.UpdateOverwrites | src/app/worker.js:65-67 | a second update of a file replaces the first one, and the overall progress is that of the second update alone |
| Tracker.UpdateOverall | src/app/worker.js:65-84 | the overall value after an update is the clamped value plus the other entries' total, divided by the other entries' count plus one |
| Tracker.CompleteIdempotent | src/app/worker.js:70-73 | completing a file twice gives the same map and the same overall value as completing it once |
| Tracker.TwoFileExample | src/app/worker.js:65-84 | files at 50 and at 100 give an overall progress of 75 |
| ProgressCallback.FileOr | src/app/worker.js:139 | a present, non-empty file name is used as given, and an absent or empty one gives the default |
| ProgressCallback.Apply | src/app/worker.js:65-72 | a progress operation stores the clamped percent under its key and a done operation stores exactly 100. Every other entry is unchanged, only its own key is added, and every entry stays clamped |
| ProgressCallback.Normalise | src/app/worker.js:122-159 | a step is produced exactly for a number, a `progress` record with a numeric progress, or a `done` record. A fraction sets `model` to `clamp(100*x)` and posts `model`. A `progress` record sets `file \|\| 'unknown'` to the clamped progress and posts `file \|\| 'model'`. A `done` record marks `file \|\| 'unknown'` done and posts a file-loaded notice for `file \|\| 'file'`. The stored key equals the posted file exactly when the record's file is truthy |
| ProgressCallback.KeyDiffersFromAnnouncedFile | src/app/worker.js:139-155 | for every record whose file is absent or empty, a `progress` record is stored under `unknown` but posted as `model`, and a `done` record is stored under `unknown` but posted as `file` |
| ProgressCallback.IgnoredReports | src/app/worker.js:135-159 | records with any other status, or a `progress` status without a numeric progress, and non-object reports produce no step |
| PipelineSingleton.GetInstance | src/app/worker.js:22-58 | a cached instance is returned with no load attempt. Otherwise the specific-file attempt comes first. If it succeeds, that is the only attempt. If it fails, the default-files attempt follows and its outcome is the call's outcome. Success caches and returns the loaded instance. Double failure throws the fallback's error and leaves the cache empty. The progress reports are those of the attempts made, in order |
| PipelineSingleton.CachedIsFinal | src/app/worker.js:23 | once an instance is cached, every later call returns it without loading |
| PipelineSingleton.InitOnce | src/app/worker.js:22-39 | over a run of calls, every call after a successful one returns the same instance and makes no attempt |
| PipelineSingleton.Run | src/app/worker.js:22-58 | a run of `getInstance` calls has one call per loader. The first call sees the starting cache, and each later call sees the cache its predecessor left, since `instance` is a static field |
| PipelineSingleton.FailureRetries | src/app/worker.js:40-56 | a call whose two attempts both fail leaves the cache empty, so the next call starts again with the specific file |
| ResponseText.LastContent | src/app/worker.js:202 | the result is never empty. It is the last turn's non-empty content when there is one, and otherwise the stock `No response generated` |
| ResponseText.Extract | src/app/worker.js:194-209 | it throws exactly when the first element is null or undefined, or when the shape needs the diagnostic and rendering the output as JSON throws. The diagnostic is the fixed prefix followed by the rendering. Every reply it returns is non-empty. A non-array or empty output yields `No output generated` |
| ResponseText.Diagnostic | src/app/worker.js:205 | the diagnostic is the fixed prefix followed by the JSON rendering, and an error thrown by the rendering propagates unchanged |
| ResponseText.TextIsReturned | src/app/worker.js:197-199 | a non-empty string `generated_text` is the reply itself |
| ResponseText.LastTurnIsReturned | src/app/worker.js:200-202 | a chat-formatted `generated_text` whose last turn has non-empty content yields that content |
| ResponseText.OtherShapesAreDiagnosed | src/app/worker.js:197-206 | when the JSON rendering does not throw, an absent, non-string or empty `generated_text` yields a reply starting with `Received response in unexpected format: ` |
| ResponseText.EmptyChatHasStockReply | src/app/worker.js:202 | an empty chat, or one whose last turn is nullish or has no content, yields `No response generated` |
| Worker.ErrorMessage | src/app/worker.js:220 | the posted error message is `Error: `, then the error's description, then `. Check console for details.` |
| Worker.Steps | src/app/worker.js:122-160 | the callback turns a run of reports into at most one step per report. `StepsOne` and `StepsAppend` together determine the steps exactly |
| Worker.StepsOne | src/app/worker.js:122-160 | a single report yields its normalised step when the callback acts on it, and no step otherwise |
| Worker.StepsAppend | src/app/worker.js:122-160 | the steps of two consecutive runs of reports are the steps of the first run followed by those of the second |
| Worker.Feed | src/app/worker.js:122-160 | applying the normalised reports in order keeps the tracker clamped. It posts exactly one progress or file-loaded message per step, each with an overall value in [0, 100] |
| Worker.FeedState | src/app/worker.js:126-151 | after feeding, the tracker is the one obtained by applying every step's update in order |
| Worker.FeedAnnounces | src/app/worker.js:126-157 | the message posted for each step has that step's kind, file and percent, and its overall value is the mean of the tracker right after that step's own update |
| Worker.FeedKeys | src/app/worker.js:126-151 | after the reports are applied, the tracker's keys are its old keys plus exactly the keys the steps name |
| Worker.Finish | src/app/worker.js:184-225 | a loaded request ends in one terminal message. It is `complete` with the extracted reply exactly when generation returned and extraction did not throw. Otherwise it is `error` with the message built from the thrown description, whether generation or extraction threw |
| Worker.Tail | src/app/worker.js:162-225 | after the load progress a prompt posts messages ending in exactly one terminal message, with no terminal message before it. A successful load posts `done`, `ready` and the generation's terminal message (lines 162-168). A failed load posts only the error of the `catch` (lines 217-225) |
| Worker.Handle | src/app/worker.js:91-229 | a heartbeat is answered with one heartbeat reply and changes nothing. A prompt posts at least two messages, `initiate` (overall 0) first, and leaves the cache as `getInstance` left it |
| Worker.HeartbeatOnlyEchoes | src/app/worker.js:92-96 | a heartbeat yields exactly one heartbeat reply and changes neither the tracker nor the cache |
| Worker.PromptEvents | src/app/worker.js:110-216 | unfolds the prompt case of `Handle`'s definition for the other lemmas: a prompt's messages are `initiate`, then one message per step of the reports `getInstance` made, as `Feed` posts them, then the tail. The tracker afterwards is the fed one, and the cache is the one `getInstance` left |
| Worker.PromptShape | src/app/worker.js:113-225 | a prompt posts `initiate` (overall 0) first and exactly one terminal message, last. Every overall value it posts is in [0, 100], and it posts no heartbeat reply |
| Worker.PromptTracker | src/app/worker.js:110-160 | after a prompt the tracker is clamped and holds exactly the files reported during this request, so nothing carries over from an earlier one |
| Worker.PromptOrderLoaded | src/app/worker.js:113-216 | a prompt whose model loads posts `initiate`, only load progress, then `done` at 100 and `ready`, and only then its terminal message |
| Worker.PromptLoadFails | src/app/worker.js:122-225 | a prompt whose model fails to load posts exactly `initiate`, then the progress messages `Feed` posts for both attempts' reports, then one error carrying the fallback's error. Nothing comes between the last progress message and the error, so neither `done` nor `ready` is posted |
| Worker.CachedPrompt | src/app/worker.js:23-168 | with the model cached, a prompt posts exactly `initiate`, `done`, `ready` and its terminal message, and leaves the tracker empty |

## Left out

- The `pipeline(...)` loader and the `generator(...)` call belong to the inference library. They are inputs here: each load attempt's progress reports and outcome (`Attempt`), and the generation outcome (`Generation`). The prompt text and the fixed decoding parameters therefore have no effect in the model.
- The 70-second `setTimeout` watchdog and its `clearTimeout` are timer-driven concurrency, so no property about timeouts is stated. The timer is armed in the same synchronous run that posts `initiate`. When the handler posts a terminal message, the timer is cleared in that same run. So its error message can then only arrive strictly between `initiate` and the terminal message. "Exactly one terminal message" therefore holds only for the messages the handler itself posts.
- Overlapping requests are not modelled: two prompts that both reach `getInstance` before either load finishes could both load. Handlers run one message at a time here.
- Thrown values are assumed to be non-nullish and convertible to a string: every failure carries a description and ends in an `error` message. If the loader or the generator rejects with `null` or `undefined`, reading `error.stack` in the `catch` throws. A value that a template literal cannot convert, such as a Symbol, makes building the message throw. In both cases the handler posts no terminal message at all, its promise rejects unobserved, and the timer is cleared without an `error` message.
- The environment flags, console logging, `logErrorToServer` and the global `error` listener are I/O plumbing.
- The `total` field of progress messages is left out because it is float formatting. The JSON rendering of an unexpected output is an input: either the rendered text or the error the rendering throws. Its content is library serialisation, so only the fixed prefix is modelled.
- Worker.ErrorMessage: `error.message || error` is abstracted to one description string per error. The wording of the engine's TypeError for a null first element is a fixed placeholder.
- ProgressCallback.Normalise: NaN and infinite numbers are not modelled, because percentages are reals. A non-string truthy `file` value is also not modelled.
- ResponseText.LastContent: a truthy non-string `content` is returned as is by the code, but the model only has string contents.
- `src/app/page.js` (React state and worker wiring), `src/app/components/Progress.jsx` (a rendering component with its own clamp) and `src/app/layout.js` (static markup) are UI code and are not part of this model.

=== FILE: callback.dfy ===
/**
 * The progress callback handed to the model loader. The loader reports either
 * a raw fraction or a `{status, file, progress}` object; the callback turns
 * each report into at most one tracker operation plus the message it posts.
 */
module ProgressCallback {
  import opened Wrappers
  import opened Tracker

  /**
   * One argument of the progress callback. A field that is absent or of the
   * wrong JavaScript type is `None` (`status` is compared with `===` to string
   * literals, `progress` is tested with `typeof … === 'number'`).
   */
  datatype Report =
    | Fraction(x: real)
    | Record(status: Option<string>, file: Option<string>, progress: Option<real>)
    | OtherReport

  /** What the callback does to the tracker. */
  datatype TrackerOp = SetProgress(key: string, percent: real) | MarkDone(key: string)

  /** What the callback posts, before the overall percentage is attached. */
  datatype Notice = ProgressNotice(file: string, percent: real) | FileLoadedNotice(file: string)

  /** The tracker operation of one report together with the message it posts. */
  datatype Step = Step(op: TrackerOp, notice: Notice)

  /** The key used when a fraction is reported and the file named in its message. */
  const ModelKey := "model"
  /** The tracker key for a record whose `file` is falsy. */
  const UnknownKey := "unknown"
  /** The posted file for a falsy `file` in a `'done'` record. */
  const GenericFile := "file"

  /** `file || dflt`: an absent or empty file name is falsy. */
  function FileOr(file: Option<string>, dflt: string): (r: string)
    ensures file.Some? && file.value != "" ==> r == file.value
    ensures file.None? || file.value == "" ==> r == dflt
  {
    if file.Some? && file.value != "" then file.value else dflt
  }

  /** Applies a tracker operation: an overwrite for progress, a pin to 100 for done. */
  function Apply(t: Tracker, op: TrackerOp): (t': Tracker)
    ensures t'.Keys == t.Keys + {op.key}
    ensures forall g :: g in t && g != op.key ==> t'[g] == t[g]
    ensures op.SetProgress? ==> t'[op.key] == Clamp(op.percent)
    ensures op.MarkDone? ==> t'[op.key] == 100.0
    ensures Clamped(t) ==> Clamped(t')
  {
    match op
    case SetProgress(f, p) => Update(t, f, p)
    case MarkDone(f) => Complete(t, f)
  }

  /** The callback's case analysis over the shape of one report. */
  function Normalise(r: Report): (s: Option<Step>)
    ensures s.Some? <==>
      || r.Fraction?
      || (r.Record? && r.status == Some("progress") && r.progress.Some?)
      || (r.Record? && r.status == Some("done"))
    ensures s.Some? && s.value.op.SetProgress? ==>
      && 0.0 <= s.value.op.percent <= 100.0
      && s.value.notice == ProgressNotice(s.value.notice.file, s.value.op.percent)
    ensures s.Some? && s.value.op.MarkDone? ==> s.value.notice.FileLoadedNotice?
    ensures r.Fraction? ==>
      && s.Some? && s.value.op.SetProgress?
      && s.value.op.key == ModelKey && s.value.notice.file == ModelKey
      && s.value.op.percent == Clamp(100.0 * r.x)
    ensures r.Fraction? && 0.0 <= r.x <= 1.0 ==> s.Some? && s.value.op.percent == 100.0 * r.x
    ensures r.Record? && r.status == Some("progress") && r.progress.Some? ==>
      && s.Some? && s.value.op.SetProgress?
      && s.value.op.percent == Clamp(r.progress.value)
      && s.value.notice.file == FileOr(r.file, ModelKey)
    ensures r.Record? && r.status == Some("done") ==>
      && s.Some? && s.value.op.MarkDone?
      && s.value.notice == FileLoadedNotice(FileOr(r.file, GenericFile))
    ensures r.Record? && s.Some? ==> s.value.op.key == FileOr(r.file, UnknownKey)
    ensures r.Record? && s.Some? ==>
      (s.value.op.key == s.value.notice.file <==> r.file.Some? && r.file.value != "")
  {
    match r
    case Fraction(x) =>
      var pct := Clamp(x * 100.0);
      Some(Step(SetProgress(ModelKey, pct), ProgressNotice(ModelKey, pct)))
    case Record(status, file, progress) =>
      if status == Some("progress") && progress.Some? then
        var pct := Clamp(progress.value);
        Some(Step(SetProgress(FileOr(file, UnknownKey), pct), ProgressNotice(FileOr(file, ModelKey), pct)))
      else if status == Some("done") then
        Some(Step(MarkDone(FileOr(file, UnknownKey)), FileLoadedNotice(FileOr(file, GenericFile))))
      else
        None
    case OtherReport => None
  }

  /**
   * A record without a file name is stored under "unknown", but announced as
   * "model" when it reports progress and as "file" when it reports done.
   */
  lemma KeyDiffersFromAnnouncedFile(status: Option<string>, file: Option<string>, progress: Option<real>)
    requires file.None? || file == Some("")
    ensures status == Some("progress") && progress.Some? ==>
      Normalise(Record(status, file, progress)) ==
        Some(Step(SetProgress(UnknownKey, Clamp(progress.value)), ProgressNotice(ModelKey, Clamp(progress.value))))
    ensures status == Some("done") ==>
      Normalise(Record(status, file, progress)) ==
        Some(Step(MarkDone(UnknownKey), FileLoadedNotice(GenericFile)))
  {
  }

  /** Reports of every other shape leave the tracker untouched. */
  lemma IgnoredReports(status: Option<string>, file: Option<string>, progress: Option<real>)
    requires status != Some("done")
    requires status != Some("progress") || progress.None?
    ensures Normalise(Record(status, file, progress)).None?
    ensures Normalise(OtherReport).None?
  {
  }
}

=== FILE: response.dfy ===
/**
 * Extraction of the reply text from what the generator returned. The output
 * is described by its shape only. The JSON rendering used in the diagnostic
 * for an unexpected shape is an input (`dump`), since it is library formatting:
 * either the rendered text, or the description of the error `JSON.stringify`
 * throws (on a cyclic output, or one holding a BigInt).
 */
module ResponseText {
  import opened Wrappers

  /** One turn of a chat-formatted `generated_text`: null or undefined, or an object whose `content` may be absent (`None`). */
  datatype Turn = NullishTurn | Turn(content: Option<string>)

  /** The `generated_text` field of the first output element. */
  datatype GeneratedText =
    | Absent                  // undefined, or null, or any value neither string nor array
    | Text(s: string)
    | Turns(turns: seq<Turn>)

  /** The first element of the output array. */
  datatype Element =
    | NullishElement          // null or undefined: reading a field of it throws a TypeError
    | Element(generated: GeneratedText)

  /** The generator's output. */
  datatype Output = NotAnArray | Elements(items: seq<Element>)

  const NoResponse := "No response generated"
  const NoOutput := "No output generated"
  const UnexpectedPrefix := "Received response in unexpected format: "
  /** The description of the TypeError thrown when the first element is null or undefined. */
  const NullElementError := "TypeError"

  /** The text carried by the last turn of a chat, or the stock reply when there is none. */
  function LastContent(turns: seq<Turn>): (r: string)
    ensures r != ""
    ensures r != NoResponse ==>
      turns != [] && turns[|turns| - 1].Turn? && turns[|turns| - 1].content == Some(r)
    ensures turns != [] && turns[|turns| - 1].Turn? && turns[|turns| - 1].content.Some?
              && turns[|turns| - 1].content.value != "" ==>
      r == turns[|turns| - 1].content.value
  {
    if turns == [] then NoResponse
    else
      match turns[|turns| - 1]
      case NullishTurn => NoResponse
      case Turn(content) =>
        if content.Some? && content.value != "" then content.value else NoResponse
  }

  /** The first element is null or undefined, so reading `generated_text` from it throws. */
  predicate FirstIsNullish(output: Output) {
    output.Elements? && |output.items| > 0 && output.items[0].NullishElement?
  }

  /** The first element's `generated_text` is neither a non-empty string nor an array. */
  predicate NeedsDiagnostic(output: Output) {
    && output.Elements? && |output.items| > 0 && output.items[0].Element?
    && (output.items[0].generated.Absent? || output.items[0].generated == Text(""))
  }

  /** The case analysis over the output's shape: a reply text, or the error it throws. */
  function Extract(output: Output, dump: Result<string, string>): (r: Result<string, string>)
    ensures r.Failure? <==> FirstIsNullish(output) || (NeedsDiagnostic(output) && dump.Failure?)
    ensures FirstIsNullish(output) ==> r == Failure(NullElementError)
    ensures NeedsDiagnostic(output) && dump.Failure? ==> r == Failure(dump.error)
    ensures NeedsDiagnostic(output) && dump.Success? ==> r == Success(UnexpectedPrefix + dump.value)
    ensures r.Success? ==> r.value != ""
    ensures output.NotAnArray? || output == Elements([]) ==> r == Success(NoOutput)
  {
    match output
    case NotAnArray => Success(NoOutput)
    case Elements(items) =>
      if |items| == 0 then Success(NoOutput)
      else
        match items[0]
        case NullishElement => Failure(NullElementError)
        case Element(generated) =>
          match generated
          case Text(s) =>
            if s != "" then Success(s) else Diagnostic(dump)
          case Turns(turns) => Success(LastContent(turns))
          case Absent => Diagnostic(dump)
  }

  /** `'Received response in unexpected format: ' + JSON.stringify(output)`, which throws when the rendering does. */
  function Diagnostic(dump: Result<string, string>): (r: Result<string, string>)
    ensures r.Success? <==> dump.Success?
    ensures r.Success? ==>
      && |r.value| == |UnexpectedPrefix| + |dump.value|
      && r.value[..|UnexpectedPrefix|] == UnexpectedPrefix
      && r.value[|UnexpectedPrefix|..] == dump.value
    ensures r.Failure? ==> r.error == dump.error
  {
    match dump
    case Success(text) => Success(UnexpectedPrefix + text)
    case Failure(e) => Failure(e)
  }

  /** Whether `s` begins with `prefix`. */
  predicate StartsWith(s: string, prefix: string) {
    |prefix| <= |s| && s[..|prefix|] == prefix
  }

  /** A non-empty string `generated_text` is the reply itself. */
  lemma TextIsReturned(s: string, rest: seq<Element>, dump: Result<string, string>)
    requires s != ""
    ensures Extract(Elements([Element(Text(s))] + rest), dump) == Success(s)
  {
  }

  /** A chat-formatted `generated_text` yields the content of its last turn. */
  lemma LastTurnIsReturned(turns: seq<Turn>, reply: string, rest: seq<Element>, dump: Result<string, string>)
    requires reply != ""
    ensures Extract(Elements([Element(Turns(turns + [Turn(Some(reply))]))] + rest), dump) == Success(reply)
  {
  }

  /**
   * Every shape other than a non-empty string or an array `generated_text`
   * yields the diagnostic; an empty string is such a shape, being falsy.
   */
  lemma {:induction false} OtherShapesAreDiagnosed(g: GeneratedText, rest: seq<Element>, dump: Result<string, string>)
    requires g.Absent? || g == Text("")
    requires dump.Success?
    ensures Extract(Elements([Element(g)] + rest), dump).Success?
    ensures StartsWith(Extract(Elements([Element(g)] + rest), dump).value, UnexpectedPrefix)
  {
    var r := Extract(Elements([Element(g)] + rest), dump);
    assert r == Success(UnexpectedPrefix + dump.value);
    assert (UnexpectedPrefix + dump.value)[..|UnexpectedPrefix|] == UnexpectedPrefix;
  }

  /** An empty chat, or one whose last turn has no content, yields the stock reply. */
  lemma EmptyChatHasStockReply(turns: seq<Turn>, rest: seq<Element>, dump: Result<string, string>)
    requires turns == [] || turns[|turns| - 1].NullishTurn? || turns[|turns| - 1] == Turn(None)
             || turns[|turns| - 1] == Turn(Some(""))
    ensures Extract(Elements([Element(Turns(turns))] + rest), dump) == Success(NoResponse)
  {
  }
}

=== FILE: singleton.dfy ===
/**
 * `PipelineSingleton.getInstance`: a cache holding at most one loaded
 * pipeline, filled by a first load attempt that asks for the packaged
 * `model_q4f16.onnx` file and, if that throws, by exactly one fallback attempt
 * with the library's default files. The loader is abstract: what each attempt
 * reports through the progress callback and whether it succeeds are inputs.
 */
module PipelineSingleton {
  import opened Wrappers
  import opened ProgressCallback

  /**
   * Which model files a load attempt asks for: the first attempt names
   * `model_q4f16.onnx` in its options, the fallback leaves the choice to the library.
   */
  datatype ModelFiles = SpecificFile | DefaultFiles

  /** What one call of the loader does: the progress reports it makes, then its outcome. */
  datatype Attempt<P> = Attempt(reports: seq<Report>, outcome: Result<P, string>)

  /** The effect of one `getInstance` call. */
  datatype Call<P> = Call(
    cache: Option<P>,          // the cached instance afterwards
    result: Result<P, string>, // what the call returns or throws
    tried: seq<ModelFiles>,    // the load attempts it made, in order
    reports: seq<Report>       // the progress reports those attempts made, in order
  )

  /** One `getInstance` call against a cache, given how each attempt would go. */
  function GetInstance<P>(cache: Option<P>, specific: Attempt<P>, fallback: Attempt<P>): (c: Call<P>)
    ensures |c.tried| <= 2
    ensures cache.Some? ==> c == Call(cache, Success(cache.value), [], [])
    ensures cache.None? ==> |c.tried| >= 1 && c.tried[0] == SpecificFile
    ensures c.result.Success? <==> c.cache.Some?
    ensures c.result.Success? ==> c.cache == Some(c.result.value)
    ensures c.result.Failure? ==>
      && cache.None?
      && c.tried == [SpecificFile, DefaultFiles]
      && c.result == fallback.outcome
    ensures cache.None? && specific.outcome.Success? ==>
      c.tried == [SpecificFile] && c.result == specific.outcome
    ensures cache.None? && specific.outcome.Failure? ==>
      c.tried == [SpecificFile, DefaultFiles] && c.result == fallback.outcome
    ensures c.reports ==
      (if SpecificFile in c.tried then specific.reports else []) +
      (if DefaultFiles in c.tried then fallback.reports else [])
  {
    if cache.Some? then
      Call(cache, Success(cache.value), [], [])
    else if specific.outcome.Success? then
      Call(Some(specific.outcome.value), specific.outcome, [SpecificFile], specific.reports)
    else if fallback.outcome.Success? then
      Call(Some(fallback.outcome.value), fallback.outcome, [SpecificFile, DefaultFiles],
           specific.reports + fallback.reports)
    else
      Call(None, fallback.outcome, [SpecificFile, DefaultFiles], specific.reports + fallback.reports)
  }

  /** How the two attempts of one call would go, should that call reach the loader. */
  datatype Loader<P> = Loader(specific: Attempt<P>, fallback: Attempt<P>)

  /** A run of `getInstance` calls, one per loader, each seeing the cache the previous one left. */
  function Run<P>(cache: Option<P>, loaders: seq<Loader<P>>): (calls: seq<Call<P>>)
    ensures |calls| == |loaders|
    ensures loaders != [] ==> calls[0] == GetInstance(cache, loaders[0].specific, loaders[0].fallback)
    ensures forall i :: 0 < i < |calls| ==>
      calls[i] == GetInstance(calls[i - 1].cache, loaders[i].specific, loaders[i].fallback)
    decreases |loaders|
  {
    if loaders == [] then []
    else
      var c := GetInstance(cache, loaders[0].specific, loaders[0].fallback);
      [c] + Run(c.cache, loaders[1..])
  }

  /** Once an instance is cached, every later call returns it and loads nothing. */
  lemma {:induction false} CachedIsFinal<P>(p: P, loaders: seq<Loader<P>>)
    ensures forall i :: 0 <= i < |loaders| ==>
      Run(Some(p), loaders)[i] == Call(Some(p), Success(p), [], [])
    decreases |loaders|
  {
    if loaders != [] {
      CachedIsFinal(p, loaders[1..]);
      var calls := Run(Some(p), loaders);
      assert calls == [Call(Some(p), Success(p), [], [])] + Run(Some(p), loaders[1..]);
    }
  }

  /**
   * Over a run of calls, the loader is attempted only until the first success:
   * every call after a successful one returns the same instance and loads nothing.
   */
  lemma {:induction false} InitOnce<P>(cache: Option<P>, loaders: seq<Loader<P>>, i: nat, j: nat)
    requires i < j < |loaders|
    requires Run(cache, loaders)[i].result.Success?
    ensures Run(cache, loaders)[j] == Call(Run(cache, loaders)[i].cache, Run(cache, loaders)[i].result, [], [])
    decreases |loaders|
  {
    var c := GetInstance(cache, loaders[0].specific, loaders[0].fallback);
    assert Run(cache, loaders) == [c] + Run(c.cache, loaders[1..]);
    if i == 0 {
      CachedIsFinal(c.result.value, loaders[1..]);
    } else {
      InitOnce(c.cache, loaders[1..], i - 1, j - 1);
    }
  }

  /** A call whose two attempts both fail leaves the cache empty, so the next call loads again. */
  lemma {:induction false} FailureRetries<P>(cache: Option<P>, loaders: seq<Loader<P>>, i: nat)
    requires i + 1 < |loaders|
    requires Run(cache, loaders)[i].result.Failure?
    ensures Run(cache, loaders)[i].cache.None?
    ensures Run(cache, loaders)[i + 1].tried != []
    ensures Run(cache, loaders)[i + 1].tried[0] == SpecificFile
    decreases |loaders|
  {
    var c := GetInstance(cache, loaders[0].specific, loaders[0].fallback);
    assert Run(cache, loaders) == [c] + Run(c.cache, loaders[1..]);
    if i > 0 {
      FailureRetries(c.cache, loaders[1..], i - 1);
    } else {
      var rest := Run(c.cache, loaders[1..]);
      assert rest[0] == GetInstance(None, loaders[1].specific, loaders[1].fallback);
    }
  }
}

=== FILE: tracker.dfy ===
/**
 * The worker's progress tracker: a finite map from a file identifier to the
 * last percentage reported for that file, and the overall progress, which is
 * the arithmetic mean of the stored percentages (0 when nothing is tracked).
 * Percentages are mathematical reals, so floating-point rounding is abstracted.
 */
module Tracker {

  type Tracker = map<string, real>

  /** The tracker at the start of every request, after `files.clear()`. */
  const Empty: Tracker := map[]

  /** `Math.min(Math.max(p, 0), 100)`. */
  function Clamp(p: real): (r: real)
    ensures 0.0 <= r <= 100.0
    ensures 0.0 <= p <= 100.0 ==> r == p
    ensures p < 0.0 ==> r == 0.0
    ensures p > 100.0 ==> r == 100.0
  {
    if p < 0.0 then 0.0 else if p > 100.0 then 100.0 else p
  }

  /** Every stored percentage lies in [0, 100]. */
  predicate Clamped(t: Tracker) {
    forall f :: f in t ==> 0.0 <= t[f] <= 100.0
  }

  /** `updateProgress(file, progress)` without its return value: overwrite the entry for `f`. */
  function Update(t: Tracker, f: string, p: real): (t': Tracker)
    ensures f in t' && t'[f] == Clamp(p)
    ensures t'.Keys == t.Keys + {f}
    ensures forall g :: g in t && g != f ==> t'[g] == t[g]
    ensures |t'| == if f in t then |t| else |t| + 1
    ensures Clamped(t) ==> Clamped(t')
  {
    t[f := Clamp(p)]
  }

  /** `fileCompleted(file)` without its return value: pin the entry for `f` to 100. */
  function Complete(t: Tracker, f: string): (t': Tracker)
    ensures f in t' && t'[f] == 100.0
    ensures t'.Keys == t.Keys + {f}
    ensures forall g :: g in t && g != f ==> t'[g] == t[g]
    ensures |t'| == if f in t then |t| else |t| + 1
    ensures Clamped(t) ==> Clamped(t')
  {
    t[f := 100.0]
  }

  /** Some key of a non-empty tracker; the one choice every fold below shares. */
  ghost function PickKey(t: Tracker): (f: string)
    requires |t| > 0
    ensures f in t
  {
    var f :| f in t; f
  }

  /** The sum of all stored percentages, in no particular order. */
  ghost function Sum(t: Tracker): real
    decreases |t|
  {
    if |t| == 0 then 0.0
    else
      var f := PickKey(t);
      assert |t - {f}| < |t| by { assert (t - {f}).Keys == t.Keys - {f}; }
      t[f] + Sum(t - {f})
  }

  /** `getOverallProgress()`: 0 for an empty tracker, otherwise sum divided by size. */
  ghost function Mean(t: Tracker): real {
    if |t| == 0 then 0.0 else Sum(t) / (|t| as real)
  }

  /** The sum does not depend on which key the fold takes first. */
  lemma {:induction false} SumRemove(t: Tracker, f: string)
    requires f in t
    ensures Sum(t) == t[f] + Sum(t - {f})
    decreases |t|
  {
    var g := PickKey(t);
    if g != f {
      var tg := t - {g};
      var tf := t - {f};
      assert (tg).Keys == t.Keys - {g};
      assert (tf).Keys == t.Keys - {f};
      assert f in tg && g in tf;
      SumRemove(tg, f);
      SumRemove(tf, g);
      assert tg - {f} == tf - {g};
    }
  }

  /** Overwriting an entry replaces its contribution to the sum; nothing accumulates. */
  lemma SumOverwrite(t: Tracker, f: string, v: real)
    ensures Sum(t[f := v]) == v + Sum(t - {f})
  {
    SumRemove(t[f := v], f);
    assert t[f := v] - {f} == t - {f};
  }

  /** A tracker whose entries are clamped sums to between 0 and 100 per entry. */
  lemma {:induction false} SumBounds(t: Tracker)
    requires Clamped(t)
    ensures 0.0 <= Sum(t) <= 100.0 * (|t| as real)
    decreases |t|
  {
    if |t| > 0 {
      var f := PickKey(t);
      var rest := t - {f};
      assert rest.Keys == t.Keys - {f};
      assert |rest| == |t| - 1;
      SumBounds(rest);
    }
  }

  /** When every entry is 100, the sum is exactly 100 per entry. */
  lemma {:induction false} SumAllComplete(t: Tracker)
    requires forall f :: f in t ==> t[f] == 100.0
    ensures Sum(t) == 100.0 * (|t| as real)
    decreases |t|
  {
    if |t| > 0 {
      var f := PickKey(t);
      var rest := t - {f};
      assert rest.Keys == t.Keys - {f};
      assert |rest| == |t| - 1;
      SumAllComplete(rest);
    }
  }

  /** The overall progress of a clamped tracker stays within [0, 100]. */
  lemma OverallInRange(t: Tracker)
    requires Clamped(t)
    ensures 0.0 <= Mean(t) <= 100.0
  {
    if |t| > 0 {
      SumBounds(t);
      var n := |t| as real;
      assert Sum(t) / n <= 100.0 by {
        assert Sum(t) <= 100.0 * n;
      }
    }
  }

  /** Once every tracked file is complete, the overall progress is 100. */
  lemma OverallAllComplete(t: Tracker)
    requires |t| > 0
    requires forall f :: f in t ==> t[f] == 100.0
    ensures Mean(t) == 100.0
  {
    SumAllComplete(t);
  }

  /** After the per-request clear nothing is tracked and the overall progress is 0. */
  lemma ClearedIsZero()
    ensures |Empty| == 0 && Mean(Empty) == 0.0
  {
  }

  /** A later update of the same file overwrites the earlier one rather than adding to it. */
  lemma UpdateOverwrites(t: Tracker, f: string, p: real, q: real)
    ensures Update(Update(t, f, p), f, q) == Update(t, f, q)
    ensures Mean(Update(Update(t, f, p), f, q)) == Mean(Update(t, f, q))
  {
  }

  /** The overall progress after an update, in terms of the entries it did not touch. */
  lemma UpdateOverall(t: Tracker, f: string, p: real)
    ensures Mean(Update(t, f, p)) == (Clamp(p) + Sum(t - {f})) / ((|t - {f}| + 1) as real)
  {
    var t' := Update(t, f, p);
    SumOverwrite(t, f, Clamp(p));
    assert (t - {f}).Keys == t.Keys - {f};
    assert |t'| == |t - {f}| + 1;
  }

  /** Completing a file twice leaves the same tracker and overall as completing it once. */
  lemma CompleteIdempotent(t: Tracker, f: string)
    ensures Complete(Complete(t, f), f) == Complete(t, f)
    ensures Mean(Complete(Complete(t, f), f)) == Mean(Complete(t, f))
  {
  }

  /** Two files at 50 and 100 give an overall of 75. */
  lemma TwoFileExample()
    ensures Mean(Update(Update(Empty, "a", 50.0), "b", 100.0)) == 75.0
  {
    var t := Update(Update(Empty, "a", 50.0), "b", 100.0);
    assert t == map["a" := 50.0, "b" := 100.0];
    SumRemove(t, "a");
    var rest := t - {"a"};
    assert rest == map["b" := 100.0];
    SumRemove(rest, "b");
    assert rest - {"b"} == map[];
    assert |t| == 2;
  }

  /** The entries of `t` restricted to `keys`. */
  function Restrict(t: Tracker, keys: set<string>): (r: Tracker)
    ensures r.Keys == keys * t.Keys
    ensures forall f :: f in r ==> r[f] == t[f]
  {
    map f | f in keys && f in t :: t[f]
  }

  /** Dropping one visited key from a restriction is the restriction to fewer keys. */
  lemma RestrictStep(t: Tracker, keys: set<string>, f: string)
    requires keys <= t.Keys && f in keys
    ensures Sum(Restrict(t, keys)) == t[f] + Sum(Restrict(t, keys - {f}))
  {
    var before := Restrict(t, keys);
    SumRemove(before, f);
    assert before - {f} == Restrict(t, keys - {f});
  }

  /**
   * The executable `getOverallProgress()`: visit every entry once, add it to a
   * running total, and divide by the number of entries.
   */
  method OverallProgress(t: Tracker) returns (r: real)
    ensures r == Mean(t)
    ensures Clamped(t) ==> 0.0 <= r <= 100.0
  {
    if |t| == 0 {
      return 0.0;
    }
    var total := 0.0;
    var unvisited := t.Keys;
    assert Restrict(t, unvisited) == t;
    while unvisited != {}
      invariant unvisited <= t.Keys
      invariant total + Sum(Restrict(t, unvisited)) == Sum(t)
      decreases unvisited
    {
      var f :| f in unvisited;
      RestrictStep(t, unvisited, f);
      total := total + t[f];
      unvisited := unvisited - {f};
    }
    assert Restrict(t, unvisited) == map[];
    r := total / (|t| as real);
    if Clamped(t) {
      OverallInRange(t);
    }
  }
}

=== FILE: worker.dfy ===
/**
 * The worker's message handler as a pure function from the worker's state,
 * one incoming message and the abstract outcomes of loading and generating,
 * to the new state and the messages posted back, in order.
 */
module Worker {
  import opened Wrappers
  import opened Tracker
  import opened ProgressCallback
  import opened PipelineSingleton
  import opened ResponseText

  /** An incoming message: a liveness probe, or a prompt (`{text}`). */
  datatype Request = Heartbeat | Prompt(text: string)

  /** A posted message. */
  datatype Event =
    | HeartbeatReply
    | Initiate(file: string, percent: real, overall: real)
    | Progress(file: string, percent: real, overall: real)
    | FileLoaded(file: string, overall: real)
    | ModelDone(file: string, overall: real)
    | Ready
    | Complete(text: string)
    | Error(message: string)

  /**
   * What the generator does when called on the prompt: returns an output
   * (with its JSON rendering, or the error rendering it throws), or throws.
   */
  datatype Generation = Generated(output: Output, dump: Result<string, string>) | GenerationThrew(description: string)

  /** The state the worker keeps between messages. */
  datatype State<P> = State(tracker: Tracker, cache: Option<P>)

  /** The handler's effect: the state afterwards and the messages posted, in order. */
  datatype Reply<P> = Reply(state: State<P>, events: seq<Event>)

  predicate IsTerminal(e: Event) {
    e.Complete? || e.Error?
  }

  predicate IsLoadEvent(e: Event) {
    e.Progress? || e.FileLoaded?
  }

  /** The overall percentage an event carries, where it carries one, lies in [0, 100]. */
  predicate OverallInBounds(e: Event) {
    (e.Initiate? || e.Progress? || e.FileLoaded? || e.ModelDone?) ==> 0.0 <= e.overall <= 100.0
  }

  /** The error message posted for an error whose description is `d`. */
  function ErrorMessage(d: string): (m: string)
    ensures |m| == |ErrorPrefix| + |d| + |ErrorSuffix|
    ensures m[..|ErrorPrefix|] == ErrorPrefix
    ensures m[|ErrorPrefix|..|ErrorPrefix| + |d|] == d
    ensures m[|ErrorPrefix| + |d|..] == ErrorSuffix
  {
    ErrorPrefix + d + ErrorSuffix
  }

  const ErrorPrefix := "Error: "
  const ErrorSuffix := ". Check console for details."

  /** The steps a run of progress reports produces, in order; ignored reports drop out. */
  function Steps(reports: seq<Report>): (steps: seq<Step>)
    ensures |steps| <= |reports|
    decreases |reports|
  {
    if reports == [] then []
    else
      match Normalise(reports[0])
      case Some(step) => [step] + Steps(reports[1..])
      case None => Steps(reports[1..])
  }

  /** A single report contributes its step when the callback acts on it, and nothing otherwise. */
  lemma StepsOne(r: Report)
    ensures Steps([r]) == if Normalise(r).Some? then [Normalise(r).value] else []
  {
    assert [r][1..] == [];
  }

  /** The steps of consecutive runs of reports are the steps of each run, in order. */
  lemma {:induction false} StepsAppend(a: seq<Report>, b: seq<Report>)
    ensures Steps(a + b) == Steps(a) + Steps(b)
    decreases |a|
  {
    if a != [] {
      assert (a + b)[0] == a[0];
      assert (a + b)[1..] == a[1..] + b;
      StepsAppend(a[1..], b);
    } else {
      assert a + b == b;
    }
  }

  /** The tracker keys a run of steps touches. */
  function StepKeys(steps: seq<Step>): set<string> {
    set i | 0 <= i < |steps| :: steps[i].op.key
  }

  /** The message posted for one step, carrying the tracker's new overall. */
  ghost function Announce(n: Notice, t: Tracker): Event {
    match n
    case ProgressNotice(f, p) => Progress(f, p, Mean(t))
    case FileLoadedNotice(f) => FileLoaded(f, Mean(t))
  }

  /** A progress or file-loaded message whose overall percentage lies in [0, 100]. */
  predicate BoundedLoadEvent(e: Event) {
    IsLoadEvent(e) && OverallInBounds(e)
  }

  /** Applies the steps to the tracker in order, posting one message per step. */
  ghost function Feed(t: Tracker, steps: seq<Step>): (r: (Tracker, seq<Event>))
    requires Clamped(t)
    ensures Clamped(r.0)
    ensures |r.1| == |steps|
    ensures forall i :: 0 <= i < |r.1| ==> BoundedLoadEvent(r.1[i])
    decreases |steps|
  {
    if steps == [] then (t, [])
    else
      var t1 := Apply(t, steps[0].op);
      OverallInRange(t1);
      var e := Announce(steps[0].notice, t1);
      var rest := Feed(t1, steps[1..]);
      assert forall i :: 1 <= i < 1 + |rest.1| ==> ([e] + rest.1)[i] == rest.1[i - 1];
      (rest.0, [e] + rest.1)
  }

  /** The tracker after applying the steps in order. */
  function Replay(t: Tracker, steps: seq<Step>): (t': Tracker)
    ensures Clamped(t) ==> Clamped(t')
    decreases |steps|
  {
    if steps == [] then t else Replay(Apply(t, steps[0].op), steps[1..])
  }

  /** Feeding leaves the tracker that applying every step in order produces. */
  lemma {:induction false} FeedState(t: Tracker, steps: seq<Step>)
    requires Clamped(t)
    ensures Feed(t, steps).0 == Replay(t, steps)
    decreases |steps|
  {
    if steps != [] {
      FeedState(Apply(t, steps[0].op), steps[1..]);
    }
  }

  /**
   * The message posted for step `i` is that step's notice, carrying the
   * overall of the tracker right after that step's own update.
   */
  lemma {:induction false} FeedAnnounces(t: Tracker, steps: seq<Step>, i: nat)
    requires Clamped(t)
    requires i < |steps|
    ensures Feed(t, steps).1[i] == Announce(steps[i].notice, Apply(Replay(t, steps[..i]), steps[i].op))
    decreases i
  {
    var t1 := Apply(t, steps[0].op);
    var rest := Feed(t1, steps[1..]);
    assert Feed(t, steps).1 == [Announce(steps[0].notice, t1)] + rest.1;
    if i == 0 {
      assert steps[..0] == [];
    } else {
      FeedAnnounces(t1, steps[1..], i - 1);
      ReplayShift(t, steps, i);
      assert steps[1..][i - 1] == steps[i];
    }
  }

  /** Replaying a non-empty prefix is replaying the rest of it after the first step. */
  lemma ReplayShift(t: Tracker, steps: seq<Step>, i: nat)
    requires 0 < i <= |steps|
    ensures Replay(t, steps[..i]) == Replay(Apply(t, steps[0].op), steps[1..][..i - 1])
  {
    assert steps[..i][1..] == steps[1..][..i - 1];
    assert steps[..i][0] == steps[0];
  }

  /** The keys of a non-empty run of steps: the first step's key and those of the rest. */
  lemma StepKeysCons(steps: seq<Step>)
    requires steps != []
    ensures StepKeys(steps) == {steps[0].op.key} + StepKeys(steps[1..])
  {
    forall k | k in StepKeys(steps)
      ensures k in {steps[0].op.key} + StepKeys(steps[1..])
    {
      var i :| 0 <= i < |steps| && steps[i].op.key == k;
      if i > 0 {
        assert steps[1..][i - 1] == steps[i];
      }
    }
    forall k | k in StepKeys(steps[1..])
      ensures k in StepKeys(steps)
    {
      var i :| 0 <= i < |steps[1..]| && steps[1..][i].op.key == k;
      assert steps[i + 1] == steps[1..][i];
    }
  }

  /** After feeding, the tracker holds the keys it held plus exactly those the steps name. */
  lemma {:induction false} FeedKeys(t: Tracker, steps: seq<Step>)
    requires Clamped(t)
    ensures Feed(t, steps).0.Keys == t.Keys + StepKeys(steps)
    decreases |steps|
  {
    if steps != [] {
      var t1 := Apply(t, steps[0].op);
      FeedKeys(t1, steps[1..]);
      StepKeysCons(steps);
    }
  }

  /** The message that ends a request whose model loaded. */
  function Finish(gen: Generation): (e: Event)
    ensures IsTerminal(e)
    ensures e.Complete? ==> e.text != ""
    ensures e.Complete? <==> gen.Generated? && Extract(gen.output, gen.dump).Success?
    ensures gen.Generated? && Extract(gen.output, gen.dump).Success? ==>
      e == Complete(Extract(gen.output, gen.dump).value)
    ensures gen.Generated? && Extract(gen.output, gen.dump).Failure? ==>
      e == Error(ErrorMessage(Extract(gen.output, gen.dump).error))
    ensures gen.GenerationThrew? ==> e == Error(ErrorMessage(gen.description))
  {
    match gen
    case GenerationThrew(d) => Error(ErrorMessage(d))
    case Generated(output, dump) =>
      match Extract(output, dump)
      case Success(text) => Complete(text)
      case Failure(d) => Error(ErrorMessage(d))
  }

  /** What a prompt posts after the load progress. */
  function Tail<P>(loaded: Result<P, string>, gen: Generation): (tail: seq<Event>)
    ensures |tail| >= 1 && IsTerminal(tail[|tail| - 1])
    ensures forall i :: 0 <= i < |tail| - 1 ==> !IsTerminal(tail[i])
    ensures forall i :: 0 <= i < |tail| ==> tail[i] != HeartbeatReply && OverallInBounds(tail[i])
  {
    match loaded
    case Failure(d) => [Error(ErrorMessage(d))]
    case Success(_) => [ModelDone(ModelKey, 100.0), Ready, Finish(gen)]
  }

  /** The handler of one incoming message. */
  ghost function Handle<P>(w: State<P>, req: Request, specific: Attempt<P>, fallback: Attempt<P>, gen: Generation): (r: Reply<P>)
    ensures req.Heartbeat? ==> r == Reply(w, [HeartbeatReply])
    ensures req.Prompt? ==>
      && |r.events| >= 2
      && r.events[0] == Initiate(ModelKey, 0.0, 0.0)
      && r.state.cache == GetInstance(w.cache, specific, fallback).cache
  {
    match req
    case Heartbeat => Reply(w, [HeartbeatReply])
    case Prompt(_) =>
      var call := GetInstance(w.cache, specific, fallback);
      var fed := Feed(Empty, Steps(call.reports));
      var head := [Initiate(ModelKey, 0.0, 0.0)] + fed.1;
      Reply(State(fed.0, call.cache), head + Tail(call.result, gen))
  }

  /** A heartbeat gets exactly one heartbeat reply and changes nothing, not even the tracker. */
  lemma HeartbeatOnlyEchoes<P>(w: State<P>, specific: Attempt<P>, fallback: Attempt<P>, gen: Generation)
    ensures Handle(w, Heartbeat, specific, fallback, gen).events == [HeartbeatReply]
    ensures Handle(w, Heartbeat, specific, fallback, gen).state == w
  {
  }

  /** The messages of a prompt are `initiate`, then the load progress, then `tail`. */
  lemma PromptEvents<P>(w: State<P>, text: string, specific: Attempt<P>, fallback: Attempt<P>, gen: Generation)
    ensures var call := GetInstance(w.cache, specific, fallback);
      var fed := Feed(Empty, Steps(call.reports));
      var r := Handle(w, Prompt(text), specific, fallback, gen);
      && r.state == State(fed.0, call.cache)
      && r.events == [Initiate(ModelKey, 0.0, 0.0)] + fed.1 + Tail(call.result, gen)
  {
  }

  /**
   * A prompt posts `initiate` first and exactly one terminal message, last;
   * every overall percentage it posts lies in [0, 100]; and no heartbeat
   * reply is among its messages.
   */
  lemma PromptShape<P>(w: State<P>, text: string, specific: Attempt<P>, fallback: Attempt<P>, gen: Generation)
    ensures var es := Handle(w, Prompt(text), specific, fallback, gen).events;
      && |es| >= 2
      && es[0] == Initiate(ModelKey, 0.0, 0.0)
      && IsTerminal(es[|es| - 1])
      && (forall i :: 0 <= i < |es| - 1 ==> !IsTerminal(es[i]))
      && (forall i :: 0 <= i < |es| ==> es[i] != HeartbeatReply && OverallInBounds(es[i]))
  {
    var call := GetInstance(w.cache, specific, fallback);
    var load := Feed(Empty, Steps(call.reports)).1;
    var tail := Tail(call.result, gen);
    PromptEvents(w, text, specific, fallback, gen);
    ShapeOfPromptEvents(load, tail);
  }

  /**
   * After a prompt the tracker holds exactly the files reported during this
   * request, each clamped: nothing carries over from an earlier request.
   */
  lemma PromptTracker<P>(w: State<P>, text: string, specific: Attempt<P>, fallback: Attempt<P>, gen: Generation)
    ensures var t := Handle(w, Prompt(text), specific, fallback, gen).state.tracker;
      && Clamped(t)
      && t.Keys == StepKeys(Steps(GetInstance(w.cache, specific, fallback).reports))
  {
    var call := GetInstance(w.cache, specific, fallback);
    PromptEvents(w, text, specific, fallback, gen);
    FeedKeys(Empty, Steps(call.reports));
  }

  /** `initiate`, then bounded load events, then a tail ending in its only terminal message. */
  lemma {:induction false} ShapeOfPromptEvents(load: seq<Event>, tail: seq<Event>)
    requires forall i :: 0 <= i < |load| ==> BoundedLoadEvent(load[i])
    requires |tail| >= 1 && IsTerminal(tail[|tail| - 1])
    requires forall i :: 0 <= i < |tail| - 1 ==> !IsTerminal(tail[i])
    requires forall i :: 0 <= i < |tail| ==> tail[i] != HeartbeatReply && OverallInBounds(tail[i])
    ensures var es := [Initiate(ModelKey, 0.0, 0.0)] + load + tail;
      && |es| >= 2
      && es[0] == Initiate(ModelKey, 0.0, 0.0)
      && IsTerminal(es[|es| - 1])
      && (forall i :: 0 <= i < |es| - 1 ==> !IsTerminal(es[i]))
      && (forall i :: 0 <= i < |es| ==> es[i] != HeartbeatReply && OverallInBounds(es[i]))
  {
    var es := [Initiate(ModelKey, 0.0, 0.0)] + load + tail;
    forall i | 0 <= i < |es|
      ensures es[i] != HeartbeatReply && OverallInBounds(es[i])
      ensures i < |es| - 1 ==> !IsTerminal(es[i])
    {
      if i == 0 {
      } else if i < 1 + |load| {
        assert es[i] == load[i - 1];
      } else {
        assert es[i] == tail[i - 1 - |load|];
      }
    }
  }

  /**
   * A prompt whose model loads posts `initiate`, the load progress, then
   * `done` at 100, then `ready`, and only after those its terminal message.
   */
  lemma PromptOrderLoaded<P>(w: State<P>, text: string, specific: Attempt<P>, fallback: Attempt<P>, gen: Generation)
    requires GetInstance(w.cache, specific, fallback).result.Success?
    ensures var es := Handle(w, Prompt(text), specific, fallback, gen).events;
      var n := |es|;
      && n >= 4
      && es[0] == Initiate(ModelKey, 0.0, 0.0)
      && (forall i :: 1 <= i < n - 3 ==> IsLoadEvent(es[i]))
      && es[n - 3] == ModelDone(ModelKey, 100.0)
      && es[n - 2] == Ready
      && es[n - 1] == Finish(gen)
  {
    var call := GetInstance(w.cache, specific, fallback);
    PromptEvents(w, text, specific, fallback, gen);
    LoadedLayout(Feed(Empty, Steps(call.reports)).1, Finish(gen));
  }

  /** `initiate`, then bounded load events, then `done`, `ready` and `last`. */
  lemma LoadedLayout(load: seq<Event>, last: Event)
    requires forall i :: 0 <= i < |load| ==> BoundedLoadEvent(load[i])
    ensures var es := [Initiate(ModelKey, 0.0, 0.0)] + load + [ModelDone(ModelKey, 100.0), Ready, last];
      var n := |es|;
      && n >= 4
      && es[0] == Initiate(ModelKey, 0.0, 0.0)
      && (forall i :: 1 <= i < n - 3 ==> IsLoadEvent(es[i]))
      && es[n - 3] == ModelDone(ModelKey, 100.0)
      && es[n - 2] == Ready
      && es[n - 1] == last
  {
    var es := [Initiate(ModelKey, 0.0, 0.0)] + load + [ModelDone(ModelKey, 100.0), Ready, last];
    forall i | 1 <= i < |es| - 3
      ensures IsLoadEvent(es[i])
    {
      assert es[i] == load[i - 1];
    }
  }

  /**
   * A prompt whose model fails to load posts `initiate`, the load progress of
   * both attempts and then the error, with nothing in between; in particular
   * neither `done` nor `ready`.
   */
  lemma PromptLoadFails<P>(w: State<P>, text: string, specific: Attempt<P>, fallback: Attempt<P>, gen: Generation)
    requires GetInstance(w.cache, specific, fallback).result.Failure?
    ensures var es := Handle(w, Prompt(text), specific, fallback, gen).events;
      && es == [Initiate(ModelKey, 0.0, 0.0)] + Feed(Empty, Steps(GetInstance(w.cache, specific, fallback).reports)).1
               + [Error(ErrorMessage(fallback.outcome.error))]
      && es[|es| - 1] == Error(ErrorMessage(fallback.outcome.error))
      && (forall i :: 0 <= i < |es| ==> !es[i].ModelDone? && !es[i].Ready?)
  {
    var call := GetInstance(w.cache, specific, fallback);
    PromptEvents(w, text, specific, fallback, gen);
    FailedLayout(Feed(Empty, Steps(call.reports)).1, ErrorMessage(fallback.outcome.error));
  }

  /** `initiate`, then bounded load events, then one error. */
  lemma FailedLayout(load: seq<Event>, message: string)
    requires forall i :: 0 <= i < |load| ==> BoundedLoadEvent(load[i])
    ensures var es := [Initiate(ModelKey, 0.0, 0.0)] + load + [Error(message)];
      && es[|es| - 1] == Error(message)
      && (forall i :: 0 <= i < |es| ==> !es[i].ModelDone? && !es[i].Ready?)
  {
    var es := [Initiate(ModelKey, 0.0, 0.0)] + load + [Error(message)];
    forall i | 0 <= i < |es|
      ensures !es[i].ModelDone? && !es[i].Ready?
    {
      if 1 <= i < |es| - 1 {
        assert es[i] == load[i - 1];
      }
    }
  }

  /** With the model already cached, a prompt loads nothing and posts exactly four messages. */
  lemma CachedPrompt<P>(tracker: Tracker, p: P, text: string, specific: Attempt<P>, fallback: Attempt<P>, gen: Generation)
    ensures Handle(State(tracker, Some(p)), Prompt(text), specific, fallback, gen) ==
      Reply(State(Empty, Some(p)),
            [Initiate(ModelKey, 0.0, 0.0), ModelDone(ModelKey, 100.0), Ready, Finish(gen)])
  {
  }
}

=== FILE: wrappers.dfy ===
/** Option and Result datatypes shared by the worker model. */
module Wrappers {

  /** A value that may be absent: a missing field, an empty cache slot. */
  datatype Option<+T> = None | Some(value: T)

  /** The outcome of something that can throw: a value, or the error it threw. */
  datatype Result<+R, +E> = Success(value: R) | Failure(error: E)
}
